=== FILE: README.md ===
# Portfolio UI state, modelled in Dafny

This project models the stateful logic of a single-page portfolio site (Next.js and React, with GSAP scroll animation):

- **Projects carousel** (`Carousel`, `CarouselLemmas`). A pinned scroll region reports a progress `p` in [0, 1]. Every update maps `p` and the slide count `n` to three things:
  - a `(rotateY, opacity, zIndex)` style for each slide;
  - a target scale for each indicator dot;
  - for `p >= 0.99`, a locked final frame.

  The viewport width picks one of three render modes: a blank placeholder, a static list, or the animated carousel. The source fixes `n = 4`; the model takes any `n >= 2`.
- **Home-page section tracker** (`SectionTracker`). A scroll handler highlights the last section whose box contains the point half a viewport down. It also models the nav buttons that scroll to each section.
- **Contact form** (`ContactForm`). It covers the submit guard and the `isSubmitting`, `submitSuccess` and `submitError` flags. It also covers per-field edits and the button text.
- **Language preference** (`LanguageContext`). The provider starts in Spanish, restores a stored choice on mount and persists each change. Consumers outside a mounted provider get a fallback.
- **Language selector** (`LanguageSelector`). It covers the entry table, the lookup with a fall-back to the first entry, and the open/close state of the drop-down.
- **Typewriter** (`Typewriter`). It reveals a text one character per interval tick. A ref guard stops a second effect run from starting another sequence.
- **Navbar** (`Navbar`). It covers the theme toggle, the menu, and the label of the section being read.

## How the model is built

**Modelling choices**
- Arithmetic is exact: all carousel values are `real`, and the 0.99 threshold is the exact rational 99/100.
- `Math.floor` is `.Floor`. `Math.round` is `(x + 0.5).Floor`, which is how JavaScript rounds ties, upward.
- The dot tweens are represented by their target scales.
- The DOM is a map from element id to its `offsetTop` and `offsetHeight`. Local storage is a `map<string, string>`.
- The network response is an `Outcome` parameter (`Delivered` or `Failed`).
- Every timer is an explicit event. This covers the 5-second flag resets, the typewriter's start delay and its interval.

**Reference definitions the carousel is checked against**
- Below the lock, the rotation is `90 * clamp(raw - i, -1, 1)` and the opacity is a tent `1 - |raw - i| / 2` on [-1, 1). Here `raw = p * (n - 1)` and `i` is the slide index.
- From these the model proves that each slide's rotation never decreases as `p` grows, across the lock too.

**Behaviour of the carousel code that the model keeps on purpose.**
- The entering slide does not fade in from 0. Its opacity jumps to 1/2 the moment it starts to enter, while it is still edge-on at -90 degrees (`CarouselLemmas.EnteringOpacityJump`).
- At `p = 0`, the first update already gives slide 1 opacity 1/2. The frame set before any update gives it 0. The two frames also stack the slides differently (`CarouselLemmas.InitialVersusStart`).
- The locked frame and the highlighted dot agree only while `n <= 51`. With more slides, `p = 0.99` locks the last slide but highlights an earlier dot (`CarouselLemmas.LockedDotLagsForManySlides`). With the source's four slides they always agree.

## Model

| member | source | states |
|---|---|---|
| Carousel.CurrentIndex | components/proyects.tsx:96-97 | the transition index lies in [0, n-2] and brackets the raw position: index <= p(n-1) <= index+1, strictly below index+1 when p < 1 |
| Carousel.SlideProgress | components/proyects.tsx:126 | the sub-progress lies in [0, 1], is below 1 unless p = 1, and is the raw position's offset from the transition index |
| Carousel.ActiveIndex | components/proyects.tsx:100 | the rounded dot index lies in [0, n-1] and is the slide nearest the raw position (within 1/2, ties upward) |
| Carousel.Update | components/proyects.tsx:94-152 | an update yields n slide styles and n dot scales; exactly the active dot has scale 1, the others 0, on every update; p >= 0.99 gives the locked frame, otherwise the interpolated slides |
| Carousel.InitialFrame | components/proyects.tsx:71-85 | before any update slide 0 rests on top (0, 1, n), slide i > 0 waits at (-90, 0, n-i), dot 0 is scaled in and every other dot is scaled to 0 |
| Carousel.Measure | components/proyects.tsx:55-57 | every measurement yields a known mode, mobile iff the width is below 768 |
| Carousel.RenderMode | components/proyects.tsx:161-206 | the section renders the placeholder iff isMobile is unknown, the static list iff mobile, and the carousel iff desktop |
| CarouselLemmas.IndexBounds | components/proyects.tsx:96-126 | the index is min(floor(p(n-1)), n-2) in [0, n-2]; sub-progress in [0, 1]; below the lock the cap never applies and the sub-progress is below 1 |
| CarouselLemmas.PassedAndFutureSlides | components/proyects.tsx:128-151 | below the lock, slides before the current one are (90, 0, 0) and slides after the entering one are (-90, 0, 0) |
| CarouselLemmas.HandoffRanges | components/proyects.tsx:134-147 | the exiting slide has rotation in [0, 90] and opacity in [0.5, 1]; the entering one rotation in [-90, 0] and opacity in [0.5, 1]; both share zIndex n - current >= 2, above every other slide |
| CarouselLemmas.StyleRanges | components/proyects.tsx:114-151 | in every frame each rotation lies in [-90, 90] and each opacity in [0, 1] |
| CarouselLemmas.VisibleHandoff | components/proyects.tsx:114-151 | below the lock exactly the exiting and entering slides are visible, at the lock only the last one, so never more than two |
| CarouselLemmas.LockFrame | components/proyects.tsx:114-124 | at p >= 0.99 the last slide is (0, 1, n) and every other slide (90, 0, 0) |
| CarouselLemmas.SingleActiveDot | components/proyects.tsx:100-111 | the set of dots targeting scale 1 is exactly the rounded index, locked frame included |
| CarouselLemmas.RotationIsClampedOffset | components/proyects.tsx:126-151 | the interpolated rotation equals 90 times the slide's offset from the raw position clamped to [-1, 1] |
| CarouselLemmas.OpacityIsTent | components/proyects.tsx:126-151 | below p = 1 the interpolated opacity is 1 - abs(offset)/2 for offsets in [-1, 1) and 0 elsewhere |
| CarouselLemmas.InterpolatedRotationMonotone | components/proyects.tsx:126-151 | below the lock, a fixed slide's rotateY never decreases as p grows |
| CarouselLemmas.RotationBelowLocked | components/proyects.tsx:113-151 | every rotation below the lock is at most the slide's rotation in the locked frame, so crossing 0.99 never turns a slide back |
| CarouselLemmas.RotationMonotone | components/proyects.tsx:114-151 | for a fixed slide, rotateY never decreases as p grows over [0, 1], across the lock included |
| CarouselLemmas.ActiveIndexMonotone | components/proyects.tsx:96-100 | the highlighted dot index never decreases as p grows |
| CarouselLemmas.InitialVersusStart | components/proyects.tsx:71-85 | the pre-update frame and the update at p = 0 agree on every rotation, every dot and slide 0, but slide 1's opacity is 0 in one and 1/2 in the other, and the stacking differs: slide 1 goes from zIndex n-1 to n and every later slide i from n-i to 0 |
| CarouselLemmas.EnteringOpacityJump | components/proyects.tsx:141-150 | with four slides, slide 2 has opacity 0 for every p < 1/3 and 1/2 at p = 1/3 |
| CarouselLemmas.LockedDotIsLast | components/proyects.tsx:100-124 | for 2 <= n <= 51, every locked update highlights the last dot |
| CarouselLemmas.LockedDotLagsForManySlides | components/proyects.tsx:100-124 | with 52 slides, p = 0.99 locks slide 51 but highlights dot 50 |
| CarouselLemmas.ModeSelection | components/proyects.tsx:52-64 | the scroll mapping is installed iff the carousel renders; unknown width gives the placeholder; a measured width gives the carousel iff it is at least 768 |
| SectionTracker.ScanFrom | components/contact-section.tsx:46-54 | the left-to-right overwrite loop returns the last matching section when one matches, and the incoming value otherwise |
| SectionTracker.HandleScroll | components/contact-section.tsx:42-55 | probing at scrollY + innerHeight/2 with half-open boxes: the last matching section wins; with no match or missing elements the section is unchanged; a valid index stays valid |
| SectionTracker.ScrollToSection | components/contact-section.tsx:33-39 | a nav click scrolls to `sectionIds[index]` exactly when that element exists, and does nothing otherwise |
| SectionTracker.TrackStaysValid | components/contact-section.tsx:13-54 | starting from a valid index, any sequence of scrolls keeps the highlighted section a valid index |
| SectionTracker.SingleHighlight | components/contact-section.tsx:70-80 | exactly one nav button is highlighted, the one at the current index |
| SectionTracker.LaterSectionWins | components/contact-section.tsx:46-54 | when sections i < j both contain the probe, the result is never i and is at least j |
| SectionTracker.LabelsNameSections | components/contact-section.tsx:31-70 | the five button labels are the five section ids, in the same order, each with its first letter capitalised |
| SectionTracker.NavTargets | components/contact-section.tsx:31-73 | there is one button per section; button i is labelled with the capitalised `sectionIds[i]` and scrolls to that element when it exists, and does nothing otherwise |
| ContactForm.BeginSubmit | components/sections/contact-section.tsx:17-32 | with any field empty the state is unchanged and nothing is sent; otherwise the current data is posted, isSubmitting is set and submitError cleared |
| ContactForm.FinishSubmit | components/sections/contact-section.tsx:34-46 | either outcome clears isSubmitting; delivery sets submitSuccess and empties the fields, leaving submitError; failure sets submitError, keeping the data and submitSuccess |
| ContactForm.Submit | components/sections/contact-section.tsx:17-47 | an uninterrupted submit of a filled form ends delivered as (empty, not submitting, success, no error) or failed as (same data, not submitting, error); an incomplete form is untouched |
| ContactForm.ExpireSuccess | components/sections/contact-section.tsx:40 | the success timer clears submitSuccess and nothing else |
| ContactForm.ExpireError | components/sections/contact-section.tsx:43 | the error timer clears submitError and nothing else |
| ContactForm.BannerLifecycle | components/sections/contact-section.tsx:34-46 | after a delivered submit, the success timer returns the form to its initial state; after a failed one, the error timer leaves the typed fields, no error banner and no spinner, and the success flag as it was before the submit |
| ContactForm.EditName | components/sections/contact-section.tsx:128 | editing the name sets it and changes nothing else |
| ContactForm.EditEmail | components/sections/contact-section.tsx:144 | editing the email sets it and changes nothing else |
| ContactForm.EditMessage | components/sections/contact-section.tsx:160 | editing the message sets it and changes nothing else |
| ContactForm.ButtonLabel | components/sections/contact-section.tsx:176 | the button shows the sending text iff a request is in flight |
| ContactForm.DeliveredFormRejectsResubmit | components/sections/contact-section.tsx:20-39 | after a delivered submit the emptied form fails the guard, so an immediate resubmit sends nothing |
| ContactForm.FailedFormRetriesSameBody | components/sections/contact-section.tsx:20-43 | after a failed submit a retry posts the same data |
| ContactForm.LabelFollowsRequest | components/sections/contact-section.tsx:24-46 | the button reads "sending" while the request is in flight and "send" after either outcome |
| ContactForm.SubmitWhileInFlight | components/sections/contact-section.tsx:20-25 | the guard does not look at isSubmitting, so a second submit during a request posts the same body again |
| ContactForm.DeliveredDiscardsEditsInFlight | components/sections/contact-section.tsx:38-39 | edits typed during the request are discarded when it is delivered |
| LanguageContext.Parse | context/language-context.tsx:28-29 | a stored string is accepted only as the code of one of the three languages |
| LanguageContext.Translations | context/language-context.tsx:40 | `t` is the table of the current language |
| LanguageContext.Mount | context/language-context.tsx:27-33 | mounting always sets `mounted`; a stored code naming a table is adopted, anything else leaves the language as it was |
| LanguageContext.SetLanguage | context/language-context.tsx:35-38 | the setter sets the language and stores its code under "language", leaving every other key and the mounted flag alone |
| LanguageContext.UseLanguage | context/language-context.tsx:42-63 | without a mounted provider a consumer gets Spanish, the Spanish table and a no-op setter; otherwise the provider's language and its table |
| LanguageContext.ConsumerSetLanguage | context/language-context.tsx:42-62 | a consumer's setter persists only when the provider is mounted, and changes nothing before |
| LanguageContext.CodeRoundTrip | context/language-context.tsx:9-19 | every language code parses back to its language, and a string parses to a language iff it is that language's code |
| LanguageContext.DefaultWithoutPreference | context/language-context.tsx:24-33 | a fresh provider over storage with no usable preference mounts in Spanish |
| LanguageContext.PreferenceSurvivesReload | context/language-context.tsx:27-40 | after `setLanguage(l)`, a fresh provider mounting over that storage comes up in `l` with `l`'s table |
| LanguageContext.UnmountedConsumerIsInert | context/language-context.tsx:42-62 | before mounting, consumers see the same fallback as with no provider, and their setter changes neither state nor storage |
| LanguageSelector.Find | components/language-selector.tsx:51 | the lookup returns the first entry whose code matches, and returns none iff no entry matches |
| LanguageSelector.CurrentEntry | components/language-selector.tsx:51 | the flag shown is the matching entry, or the first entry (ES) when none matches |
| LanguageSelector.ToggleMenu | components/language-selector.tsx:56 | the flag button flips isOpen |
| LanguageSelector.CloseMenu | components/language-selector.tsx:71 | closing leaves the drop-down closed |
| LanguageSelector.Choose | components/language-selector.tsx:83-86 | choosing an entry closes the menu and applies the consumer setter with the entry's language |
| LanguageSelector.ClickBackdrop | components/language-selector.tsx:71 | a backdrop click closes the menu and leaves language and storage unchanged |
| LanguageSelector.TableShape | components/language-selector.tsx:41-45 | the table holds es/ES, en/US and de/DE with pairwise distinct codes |
| LanguageSelector.CurrentEntryLookup | components/language-selector.tsx:51 | every language finds its own entry, and any other value falls back to ES |
| LanguageSelector.SingleActiveEntry | components/language-selector.tsx:88-95 | an entry carries the active marker iff it is the current language's entry, so exactly one does |
| LanguageSelector.ChooseSwitchesLanguage | components/language-selector.tsx:83-86 | in a mounted page, choosing an entry switches to its language, persists it, closes the menu, and the flag then shows that entry |
| LanguageSelector.ToggleTwice | components/language-selector.tsx:49-56 | the drop-down starts closed, the first flag click opens it, and two flag clicks restore whatever state it was in |
| Typewriter.Effect | components/typewriter.tsx:26-31 | with the guard set the effect does nothing; otherwise it sets the guard and arms the start timer, and changes nothing else |
| Typewriter.Cleanup | components/typewriter.tsx:47 | as written, cleanup cancels a pending start but keeps the guard; otherwise nothing changes |
| Typewriter.RestartableCleanup | components/typewriter.tsx:47 | corrected cleanup: cancelling a pending start also releases the guard |
| Typewriter.TimerFires | components/typewriter.tsx:31-33 | the start timer begins the interval with its counter at 0 |
| Typewriter.Tick | components/typewriter.tsx:33-41 | while characters remain, a tick reveals exactly one more; the tick after the last stops, sets isComplete and calls onComplete once; consistency is preserved |
| Typewriter.Shown | components/typewriter.tsx:53-58 | character i is shown iff i < visibleChars |
| Typewriter.InitialConsistent | components/typewriter.tsx:16-18 | the writer starts with no characters shown and not complete |
| Typewriter.StepPreserves | components/typewriter.tsx:26-47 | for the machine with the restartable cleanup, every event keeps the writer consistent, never hides a character, reveals at most one, and never undoes completion |
| Typewriter.StepAsWrittenPreserves | components/typewriter.tsx:26-47 | the same holds for the machine with the cleanup as written |
| Typewriter.RunAsWrittenMonotone | components/typewriter.tsx:26-47 | for the machine as written: over any events, visibleChars never decreases and stays at most the text length, and onComplete is called at most once |
| Typewriter.RunMonotone | components/typewriter.tsx:26-47 | for the machine with the restartable cleanup: over any events, visibleChars never decreases and stays at most the text length, and onComplete is called at most once |
| Typewriter.SecondEffectIsGuarded | components/typewriter.tsx:28-29 | an effect run with the guard already set starts nothing |
| Typewriter.TicksReveal | components/typewriter.tsx:34-36 | for the machine with the restartable cleanup (ticks are the same in both machines, see TicksAgree): from counter i, k ticks reveal exactly k more characters while any remain |
| Typewriter.EmptyTextCompletesOnFirstTick | components/typewriter.tsx:34-40 | for empty text, the first tick completes with nothing shown |
| Typewriter.TypesWholeText | components/typewriter.tsx:32-43 | for the machine with the restartable cleanup: once the interval runs from counter 0, len ticks show every character and the next one completes with exactly one onComplete call |
| Typewriter.TicksAgree | components/typewriter.tsx:33-43 | interval ticks never involve the cleanup, so the machine as written and the corrected one reach the same state on any run of ticks |
| Typewriter.RunAsWrittenAppend | components/typewriter.tsx:26-47 | for the machine as written, running two event sequences one after the other is running their concatenation |
| Typewriter.AsWrittenTypesOnce | components/typewriter.tsx:26-47 | for the machine as written, outside Strict Mode: one effect run, the start timer and len+1 ticks show every character and call onComplete exactly once |
| Typewriter.AsWrittenShowsEveryCharacter | components/typewriter.tsx:50-60 | for the machine as written, after one effect run, the start timer and len+1 ticks, every character of the text is rendered visible |
| Typewriter.StrictModeTypesOnce | components/typewriter.tsx:26-47 | with the corrected cleanup, run, cleanup, run followed by the timer and len+1 ticks shows the whole text and calls onComplete exactly once |
| Typewriter.StrictModeNeverStartsAsWritten | components/typewriter.tsx:26-47 | as written, run, cleanup, run leaves the guard set and nothing armed, so no later timer or tick reveals anything |
| Navbar.ToggleTheme | components/navbar.tsx:125 | the theme button maps "dark" to "light" and anything else, unset included, to "dark" |
| Navbar.KeyOf | components/navbar.tsx:56-62 | an id has a label key iff it is one of the five tracked sections, and every such key has a label text |
| Navbar.LookupFindsEntry | components/navbar.tsx:56-62 | in a section table with distinct ids, looking up the id of any entry yields exactly that entry's label key |
| Navbar.Registered | components/navbar.tsx:64-65 | a trigger is registered exactly for the tracked sections whose element exists at mount |
| Navbar.EnterSection | components/navbar.tsx:64-73 | entering a registered section, downwards or back upwards, shows its key; any other id changes nothing |
| Navbar.Step | components/navbar.tsx:92-165 | the menu button flips menuOpen; backdrop and item clicks close it; trigger events go through EnterSection |
| Navbar.ThemeToggleInvolution | components/navbar.tsx:125 | from "dark" or "light" the toggle changes the theme, and two toggles return to it |
| Navbar.SectionTable | components/navbar.tsx:29-62 | each tracked section maps to its key, and every key has a label text |
| Navbar.LabelAlwaysDefined | components/navbar.tsx:19-96 | every reachable currentSection is a key of the label table |
| Navbar.MissingSectionIsSilent | components/navbar.tsx:65 | a section whose element was missing at mount never changes the label |
| Navbar.MenuTransitions | components/navbar.tsx:18-165 | the menu starts closed with "introduction"; two button clicks restore the state; backdrop then item leaves it closed |

## Findings

| source | as written | input that shows it | evidently intended | confidence | as-written member | corrected member |
|---|---|---|---|---|---|---|
| components/typewriter.tsx:26-47 | the cleanup cancels the pending start timer but leaves the `hasStarted` ref set, so the effect's next run returns at the guard | React Strict Mode's mount sequence: effect, cleanup, effect, then any timers and ticks (the same cleanup-then-effect also follows a change of `text`, `delay` or `speed` before the start timer fires) | the guard prevents a second typing sequence, but one sequence still runs, as it does as written without Strict Mode (Typewriter.AsWrittenTypesOnce) | medium; not executed (relies on refs surviving Strict Mode's simulated remount) | Typewriter.StrictModeNeverStartsAsWritten | Typewriter.StrictModeTypesOnce |

## Left out

- GSAP and ScrollTrigger mechanics are not modelled: pinning, scrub smoothing, the pixel-offset-to-progress mapping, the 0.2 s dot tweens and the context revert. `p` is an input that the caller keeps in [0, 1].
- Floating point: all values are exact reals. `Math.round` and `Math.floor` are exact on those values, and 0.99 is exactly 99/100.
- Missing slide or dot elements (`if (!slide) return`): the model assumes every slide and dot element is mounted.
- Slide contents, colours and images, and the static mobile list's markup: these are presentational.
- A single-slide carousel and pointer interactivity: the code has neither.
- The `fetch` to `/api/contact`: it is the `Outcome` parameter. The 5-second flag resets are the `ExpireSuccess` and `ExpireError` events, not time.
- Browser constraint validation (`required`, `type="email"`) is not modelled. It can stop a submit before the handler's own guard runs.
- `LanguageContext.Parse`: storage values are accepted only as the three language codes. In JavaScript, `translations[saved]` is also truthy for inherited property names such as "constructor", so those would be adopted as the language.
- `SectionTracker.ScrollToSection`: an out-of-range index does nothing. In JavaScript it would look up an element with id "undefined".
- Typewriter.Tick, Typewriter.Shown, Typewriter.TypesWholeText: `text` stands for the sequence of UTF-16 code units of the JavaScript string, which is what `text.length` and `text.split("")` count. A Dafny `string` literal counts Unicode scalar values, so for a text outside the Basic Multilingual Plane (an emoji, say) the source takes one tick per code unit and briefly shows half a surrogate pair, and the model's count matches only when `text` is read as code units.
- Typewriter: `delay` and `speed` are not time here, and changing `text`, `delay` or `speed` after the start is not modelled. The interval keeps the text it captured and the guard blocks a restart.
- Navbar: the pre-mount `null` render, the scroll progress bar, and the trigger geometry ("top 60%" to "bottom 60%") are not modelled. Triggers are events that carry a section id.
- The theme provider itself is not modelled: the toggle only computes the next theme value.
- Translation table contents and the locale JSON files: only which table is selected is modelled.
- Presentational components with no state logic: hero, work, about and services sections, `typewriter-effect`, `typing-animation`, `home-component`, `app/page`, `magnetic-button`, `custom-cursor`. They hold no state logic of their own beyond animation-library calls, pointer visuals and scroll-into-view clicks (the hero's button scrolls to `about-section`; the about section calls the tracker's `scrollToSection(4)`, which is `SectionTracker.ScrollToSection`).

=== FILE: carousel.dfy ===
/** The scroll-driven 3D flip carousel of the projects section.
 *
 *  A pinned scroll region reports a progress `p` in [0, 1]; every update maps
 *  `p` and the slide count `n` to a style per slide (rotateY, opacity, zIndex)
 *  and a target scale per indicator dot. Arithmetic is exact (`real`), so the
 *  source's floating-point rounding is not modelled.
 */
module Carousel {
  import opened Wrappers

  /** Progress at or above which the final frame is forced. */
  const LockThreshold: real := 0.99

  /** Viewport widths strictly below this render the static mobile list. */
  const MobileBreakpoint: int := 768

  datatype SlideStyle = SlideStyle(rotateY: real, opacity: real, zIndex: int)

  /** Styles written to the slides and target scales written to the dots by one update. */
  datatype Frame = Frame(slides: seq<SlideStyle>, dots: seq<real>)

  /** Pose of a slide that has already flipped away. */
  const Passed: SlideStyle := SlideStyle(90.0, 0.0, 0)

  /** Pose of a slide that has not started to enter. */
  const Future: SlideStyle := SlideStyle(-90.0, 0.0, 0)

  /** Pose of a slide at rest, facing the viewer, on top of a stack of `n`. */
  function Resting(n: nat): SlideStyle {
    SlideStyle(0.0, 1.0, n)
  }

  predicate ValidProgress(p: real) {
    0.0 <= p <= 1.0
  }

  function Min(a: int, b: int): int {
    if a <= b then a else b
  }

  function Abs(x: real): real {
    if x < 0.0 then -x else x
  }

  function Clamp(x: real, lo: real, hi: real): (r: real)
    requires lo <= hi
    ensures lo <= r <= hi
    ensures lo <= x <= hi ==> r == x
  {
    if x < lo then lo else if x > hi then hi else x
  }

  /** Continuous slide position `p * (n - 1)`, in [0, n - 1]. */
  function RawIndex(n: nat, p: real): (raw: real)
    requires n >= 2 && ValidProgress(p)
    ensures 0.0 <= raw <= (n - 1) as real
    ensures p < 1.0 ==> raw < (n - 1) as real
  {
    ScaleBounds(p, (n - 1) as real);
    p * (n - 1) as real
  }

  lemma ScaleBounds(p: real, m: real)
    requires ValidProgress(p) && m > 0.0
    ensures 0.0 <= p * m <= m
    ensures p < 1.0 ==> p * m < m
  {
    assert m - p * m == (1.0 - p) * m;
  }

  /** Index of the slide currently flipping away: floor of the raw position, capped at `n - 2`. */
  function CurrentIndex(n: nat, p: real): (c: int)
    requires n >= 2 && ValidProgress(p)
    ensures 0 <= c <= n - 2
    ensures c as real <= RawIndex(n, p) <= c as real + 1.0
    ensures p < 1.0 ==> RawIndex(n, p) < c as real + 1.0
  {
    Min(RawIndex(n, p).Floor, n - 2)
  }

  /** How far the current transition has advanced, in [0, 1]; it reaches 1 only at p = 1. */
  function SlideProgress(n: nat, p: real): (sp: real)
    requires n >= 2 && ValidProgress(p)
    ensures 0.0 <= sp <= 1.0
    ensures p < 1.0 ==> sp < 1.0
    ensures RawIndex(n, p) == CurrentIndex(n, p) as real + sp
  {
    RawIndex(n, p) - CurrentIndex(n, p) as real
  }

  /** The dot to highlight: `Math.round` of the raw position, i.e. floor(raw + 1/2). */
  function ActiveIndex(n: nat, p: real): (a: int)
    requires n >= 2 && ValidProgress(p)
    ensures 0 <= a <= n - 1
    ensures a as real - 0.5 <= RawIndex(n, p) < a as real + 0.5
  {
    (RawIndex(n, p) + 0.5).Floor
  }

  /** Style of slide `i` computed by the interpolating loop (the branch taken below the lock). */
  function InterpolatedSlide(n: nat, p: real, i: int): SlideStyle
    requires n >= 2 && ValidProgress(p) && 0 <= i < n
  {
    var c := CurrentIndex(n, p);
    var sp := SlideProgress(n, p);
    if i < c then Passed
    else if i == c then SlideStyle(sp * 90.0, 1.0 - sp * 0.5, n - i)
    else if i == c + 1 then SlideStyle(-90.0 + sp * 90.0, 0.5 + sp * 0.5, n - i + 1)
    else Future
  }

  /** Style of slide `i` in the locked final frame. */
  function LockedSlide(n: nat, i: int): SlideStyle {
    if i == n - 1 then Resting(n) else Passed
  }

  /** Style of slide `i` after an update at progress `p`. */
  function SlideAt(n: nat, p: real, i: int): SlideStyle
    requires n >= 2 && ValidProgress(p) && 0 <= i < n
  {
    if p >= LockThreshold then LockedSlide(n, i) else InterpolatedSlide(n, p, i)
  }

  function DotScales(n: nat, active: int): (dots: seq<real>)
    ensures |dots| == n
    ensures forall k :: 0 <= k < n ==> (dots[k] == 1.0 <==> k == active)
    ensures forall k :: 0 <= k < n ==> (dots[k] == 0.0 <==> k != active)
  {
    seq(n, k => if k == active then 1.0 else 0.0)
  }

  /** One scroll update: the dots always follow the rounded position; the slides are
   *  either the locked final frame (p >= 0.99) or the interpolated transition. */
  function Update(n: nat, p: real): (f: Frame)
    requires n >= 2 && ValidProgress(p)
    ensures |f.slides| == n && |f.dots| == n
    ensures forall k :: 0 <= k < n ==> (f.dots[k] == 1.0 <==> k == ActiveIndex(n, p))
    ensures forall k :: 0 <= k < n ==> (f.dots[k] == 0.0 <==> k != ActiveIndex(n, p))
    ensures forall i :: 0 <= i < n ==> f.slides[i] == SlideAt(n, p, i)
    ensures p >= LockThreshold ==> forall i :: 0 <= i < n ==> f.slides[i] == LockedSlide(n, i)
    ensures p < LockThreshold ==> forall i :: 0 <= i < n ==> f.slides[i] == InterpolatedSlide(n, p, i)
  {
    Frame(seq(n, i requires 0 <= i < n => SlideAt(n, p, i)), DotScales(n, ActiveIndex(n, p)))
  }

  /** State set before the first update: slide 0 at rest, the others waiting to enter. */
  function InitialFrame(n: nat): (f: Frame)
    requires n >= 2
    ensures |f.slides| == n && |f.dots| == n
    ensures f.slides[0] == Resting(n)
    ensures forall i :: 0 < i < n ==> f.slides[i] == SlideStyle(-90.0, 0.0, n - i)
    ensures forall k :: 0 <= k < n ==> (f.dots[k] == 1.0 <==> k == 0)
    ensures forall k :: 0 <= k < n ==> (f.dots[k] == 0.0 <==> k != 0)
  {
    Frame(seq(n, i => if i == 0 then Resting(n) else SlideStyle(-90.0, 0.0, n - i)), DotScales(n, 0))
  }

  /** Indices of the slides with non-zero opacity. */
  function VisibleSlides(f: Frame): set<int> {
    set i | 0 <= i < |f.slides| && f.slides[i].opacity != 0.0
  }

  /** Indices of the dots whose target scale is 1. */
  function ActiveDots(f: Frame): set<int> {
    set k | 0 <= k < |f.dots| && f.dots[k] == 1.0
  }

  // ---------------------------------------------------------------------------
  // Rendering mode

  /** What the section renders: a blank placeholder before the viewport is measured,
   *  the static list on narrow viewports, the pinned carousel otherwise. */
  datatype Mode = Placeholder | StaticList | Animated

  /** `isMobile` after a measurement (on mount and on every resize). */
  function Measure(innerWidth: int): (isMobile: Option<bool>)
    ensures isMobile.Some?
    ensures isMobile.value <==> innerWidth < MobileBreakpoint
  {
    Some(innerWidth < MobileBreakpoint)
  }

  function RenderMode(isMobile: Option<bool>): (m: Mode)
    ensures m == Placeholder <==> isMobile.None?
    ensures m == StaticList <==> isMobile == Some(true)
    ensures m == Animated <==> isMobile == Some(false)
  {
    match isMobile
    case None => Placeholder
    case Some(mobile) => if mobile then StaticList else Animated
  }

  /** Whether the effect installs the scroll mapping for this `isMobile`. */
  function InstallsScrollMapping(isMobile: Option<bool>): bool {
    !(isMobile.None? || isMobile.value)
  }
}

=== FILE: carousel_lemmas.dfy ===
/** Properties of the carousel mapping: index bounds, the two-slide handoff,
 *  value ranges, the locked final frame, the single active dot, monotonicity,
 *  and the rendering-mode switch. */
module CarouselLemmas {
  import opened Wrappers
  import opened Carousel

  /** The transition index lies in [0, n-2] and the sub-progress in [0, 1]; below
   *  the lock the sub-progress is strictly below 1. */
  lemma IndexBounds(n: nat, p: real)
    requires n >= 2 && ValidProgress(p)
    ensures 0 <= CurrentIndex(n, p) <= n - 2
    ensures CurrentIndex(n, p) == Min(RawIndex(n, p).Floor, n - 2)
    ensures 0.0 <= SlideProgress(n, p) <= 1.0
    ensures p < LockThreshold ==> CurrentIndex(n, p) == RawIndex(n, p).Floor && SlideProgress(n, p) < 1.0
  {
  }

  /** Below the lock, every slide before the current one has flipped away and every
   *  slide after the entering one waits to enter. */
  lemma PassedAndFutureSlides(n: nat, p: real)
    requires n >= 2 && ValidProgress(p) && p < LockThreshold
    ensures forall i :: 0 <= i < CurrentIndex(n, p) ==> Update(n, p).slides[i] == Passed
    ensures forall i :: CurrentIndex(n, p) + 1 < i < n ==> Update(n, p).slides[i] == Future
  {
  }

  /** The exiting and entering slides stay within their ranges and share the top of
   *  the stack, `n - current`, which is at least 2 and above every other slide. */
  lemma HandoffRanges(n: nat, p: real)
    requires n >= 2 && ValidProgress(p) && p < LockThreshold
    ensures var c := CurrentIndex(n, p);
      var out := Update(n, p).slides[c];
      var inn := Update(n, p).slides[c + 1];
      && 0.0 <= out.rotateY <= 90.0 && 0.5 <= out.opacity <= 1.0
      && -90.0 <= inn.rotateY <= 0.0 && 0.5 <= inn.opacity <= 1.0
      && out.zIndex == inn.zIndex == n - c >= 2
      && forall i :: 0 <= i < n && i != c && i != c + 1 ==> Update(n, p).slides[i].zIndex < n - c
  {
  }

  /** Every slide of every frame has rotateY in [-90, 90] and opacity in [0, 1]. */
  lemma StyleRanges(n: nat, p: real)
    requires n >= 2 && ValidProgress(p)
    ensures forall i :: 0 <= i < n ==>
      -90.0 <= Update(n, p).slides[i].rotateY <= 90.0 && 0.0 <= Update(n, p).slides[i].opacity <= 1.0
  {
  }

  /** Below the lock exactly the exiting and the entering slide are visible; in the
   *  locked frame only the last slide is. So never more than two. */
  lemma VisibleHandoff(n: nat, p: real)
    requires n >= 2 && ValidProgress(p)
    ensures p < LockThreshold ==> VisibleSlides(Update(n, p)) == {CurrentIndex(n, p), CurrentIndex(n, p) + 1}
    ensures p >= LockThreshold ==> VisibleSlides(Update(n, p)) == {n - 1}
    ensures 1 <= |VisibleSlides(Update(n, p))| <= 2
  {
    var f := Update(n, p);
    var c := CurrentIndex(n, p);
    if p < LockThreshold {
      forall i | 0 <= i < n
        ensures i in VisibleSlides(f) <==> i == c || i == c + 1
      {
        assert f.slides[i] == InterpolatedSlide(n, p, i);
      }
      assert VisibleSlides(f) == {c, c + 1};
    } else {
      forall i | 0 <= i < n
        ensures i in VisibleSlides(f) <==> i == n - 1
      {
        assert f.slides[i] == LockedSlide(n, i);
      }
      assert VisibleSlides(f) == {n - 1};
    }
  }

  /** At or above 0.99 the last slide rests on top and every other slide has flipped away. */
  lemma LockFrame(n: nat, p: real)
    requires n >= 2 && ValidProgress(p) && p >= LockThreshold
    ensures Update(n, p).slides[n - 1] == SlideStyle(0.0, 1.0, n)
    ensures forall i :: 0 <= i < n - 1 ==> Update(n, p).slides[i] == SlideStyle(90.0, 0.0, 0)
  {
  }

  /** Exactly one dot targets scale 1, on every update, locked or not. */
  lemma SingleActiveDot(n: nat, p: real)
    requires n >= 2 && ValidProgress(p)
    ensures ActiveDots(Update(n, p)) == {ActiveIndex(n, p)}
    ensures |ActiveDots(Update(n, p))| == 1
  {
    var f := Update(n, p);
    forall k | 0 <= k < n
      ensures k in ActiveDots(f) <==> k == ActiveIndex(n, p)
    {
    }
    assert ActiveDots(f) == {ActiveIndex(n, p)};
  }

  /** Reference form of the rotation: 90 times the slide's offset from the raw
   *  position, clamped to [-1, 1]. */
  lemma RotationIsClampedOffset(n: nat, p: real, i: int)
    requires n >= 2 && ValidProgress(p) && 0 <= i < n
    ensures InterpolatedSlide(n, p, i).rotateY == 90.0 * Clamp(RawIndex(n, p) - i as real, -1.0, 1.0)
  {
  }

  /** Reference form of the opacity below p = 1: a tent of height 1 around the raw
   *  position, cut off outside [-1, 1), so the entering slide starts at 1/2. */
  lemma OpacityIsTent(n: nat, p: real, i: int)
    requires n >= 2 && ValidProgress(p) && p < 1.0 && 0 <= i < n
    ensures var t := RawIndex(n, p) - i as real;
      InterpolatedSlide(n, p, i).opacity == if -1.0 <= t < 1.0 then 1.0 - Abs(t) / 2.0 else 0.0
  {
  }

  lemma ScaleMonotone(p1: real, p2: real, m: real)
    requires p1 <= p2 && m >= 0.0
    ensures p1 * m <= p2 * m
  {
    assert p2 * m - p1 * m == (p2 - p1) * m;
  }

  lemma RawIndexMonotone(n: nat, p1: real, p2: real)
    requires n >= 2 && ValidProgress(p1) && ValidProgress(p2) && p1 <= p2
    ensures RawIndex(n, p1) <= RawIndex(n, p2)
  {
    var m := (n - 1) as real;
    assert RawIndex(n, p1) == p1 * m;
    assert RawIndex(n, p2) == p2 * m;
    ScaleMonotone(p1, p2, m);
    assert p1 * m <= p2 * m;
  }

  /** Below the lock, a fixed slide's rotateY never decreases as progress grows. */
  lemma InterpolatedRotationMonotone(n: nat, p1: real, p2: real, i: int)
    requires n >= 2 && ValidProgress(p1) && ValidProgress(p2) && p1 <= p2 < LockThreshold && 0 <= i < n
    ensures InterpolatedSlide(n, p1, i).rotateY <= InterpolatedSlide(n, p2, i).rotateY
  {
    RotationIsClampedOffset(n, p1, i);
    RotationIsClampedOffset(n, p2, i);
    RawIndexMonotone(n, p1, p2);
  }

  /** Crossing the lock never turns a slide back: every rotation below the lock is at
   *  most the slide's locked rotation. */
  lemma RotationBelowLocked(n: nat, p: real, i: int)
    requires n >= 2 && ValidProgress(p) && p < LockThreshold && 0 <= i < n
    ensures InterpolatedSlide(n, p, i).rotateY <= LockedSlide(n, i).rotateY
  {
  }

  /** For a fixed slide, rotateY never decreases as progress grows, across the lock too. */
  lemma RotationMonotone(n: nat, p1: real, p2: real, i: int)
    requires n >= 2 && ValidProgress(p1) && ValidProgress(p2) && p1 <= p2 && 0 <= i < n
    ensures SlideAt(n, p1, i).rotateY <= SlideAt(n, p2, i).rotateY
  {
    if p2 < LockThreshold {
      InterpolatedRotationMonotone(n, p1, p2, i);
    } else if p1 < LockThreshold {
      RotationBelowLocked(n, p1, i);
    }
  }

  /** The highlighted dot never moves backwards as progress grows. */
  lemma ActiveIndexMonotone(n: nat, p1: real, p2: real)
    requires n >= 2 && ValidProgress(p1) && ValidProgress(p2) && p1 <= p2
    ensures ActiveIndex(n, p1) <= ActiveIndex(n, p2)
  {
    RawIndexMonotone(n, p1, p2);
  }

  /** The frame before any update and the first update at p = 0 agree on every rotation
   *  and every dot; they differ in the opacity of slide 1, which the update already
   *  sets to 1/2 (edge-on at -90 degrees), and in the stacking: the update lifts slide 1
   *  to zIndex n and drops every later slide to 0. */
  lemma InitialVersusStart(n: nat)
    requires n >= 2
    ensures forall i :: 0 <= i < n ==> InitialFrame(n).slides[i].rotateY == Update(n, 0.0).slides[i].rotateY
    ensures InitialFrame(n).dots == Update(n, 0.0).dots
    ensures InitialFrame(n).slides[0] == Update(n, 0.0).slides[0]
    ensures InitialFrame(n).slides[1].opacity == 0.0 && Update(n, 0.0).slides[1].opacity == 0.5
    ensures InitialFrame(n).slides[1].zIndex == n - 1 && Update(n, 0.0).slides[1].zIndex == n
    ensures forall i :: 2 <= i < n ==> InitialFrame(n).slides[i].zIndex == n - i && Update(n, 0.0).slides[i].zIndex == 0
  {
    assert ActiveIndex(n, 0.0) == 0;
  }

  /** The entering slide's opacity jumps from 0 to 1/2 the moment it starts to enter:
   *  with four slides, slide 2 is hidden for every p below 1/3 and half-opaque at 1/3. */
  lemma EnteringOpacityJump(p: real)
    requires 0.0 <= p < 1.0 / 3.0
    ensures Update(4, p).slides[2].opacity == 0.0
    ensures Update(4, 1.0 / 3.0).slides[2].opacity == 0.5
  {
    assert CurrentIndex(4, 1.0 / 3.0) == 1;
  }

  /** At the lock the highlighted dot is the last one only while n <= 51. */
  lemma LockedDotIsLast(n: nat, p: real)
    requires 2 <= n <= 51 && ValidProgress(p) && p >= LockThreshold
    ensures ActiveIndex(n, p) == n - 1
  {
    var m := (n - 1) as real;
    RawIndexMonotone(n, LockThreshold, p);
    assert RawIndex(n, LockThreshold) == 0.99 * m;
    assert m - 0.5 <= RawIndex(n, p) <= m;
  }

  /** With 52 slides, p = 0.99 locks the last slide but highlights the dot before it. */
  lemma LockedDotLagsForManySlides()
    ensures Update(52, 0.99).slides[51] == SlideStyle(0.0, 1.0, 52)
    ensures Update(52, 0.99).dots[50] == 1.0 && Update(52, 0.99).dots[51] == 0.0
  {
    assert RawIndex(52, 0.99) == 50.49;
    assert ActiveIndex(52, 0.99) == 50;
  }

  /** Before the viewport is measured only the placeholder renders; after any
   *  measurement the carousel runs exactly when the width is at least 768, and the
   *  scroll mapping is installed exactly when the carousel renders. */
  lemma ModeSelection(isMobile: Option<bool>, innerWidth: int)
    ensures InstallsScrollMapping(isMobile) <==> RenderMode(isMobile) == Animated
    ensures RenderMode(None) == Placeholder && !InstallsScrollMapping(None)
    ensures RenderMode(Measure(innerWidth)) != Placeholder
    ensures RenderMode(Measure(innerWidth)) == Animated <==> innerWidth >= MobileBreakpoint
  {
  }
}

=== FILE: contact_form.dfy ===
/** The contact form: three text fields, a submit guard, and three status flags.
 *
 *  The asynchronous submit is split at its `await`: `BeginSubmit` runs the guard
 *  and emits the request, `FinishSubmit` applies the response. The network is the
 *  `Outcome` parameter, and the two 5-second timers that clear the status flags
 *  are explicit events.
 */
module ContactForm {
  import opened Wrappers

  datatype FormData = FormData(name: string, email: string, message: string)

  datatype Form = Form(data: FormData, isSubmitting: bool, submitSuccess: bool, submitError: bool)

  const EmptyData: FormData := FormData("", "", "")

  const InitialForm: Form := Form(EmptyData, false, false, false)

  /** How the request ended: an ok response, or a non-ok response or a thrown error. */
  datatype Outcome = Delivered | Failed

  /** The form after the synchronous part of the handler, and the body posted, if any. */
  datatype Submission = Submission(form: Form, request: Option<FormData>)

  /** Which translated text the submit button shows. */
  datatype ButtonText = Send | Sending

  /** The guard: every field is non-empty (a JavaScript string is falsy iff empty). */
  predicate Filled(d: FormData) {
    d.name != "" && d.email != "" && d.message != ""
  }

  function BeginSubmit(f: Form): (s: Submission)
    ensures !Filled(f.data) <==> s.request.None?
    ensures !Filled(f.data) ==> s.form == f
    ensures Filled(f.data) ==>
      s.request == Some(f.data) && s.form == f.(isSubmitting := true, submitError := false)
  {
    if !Filled(f.data) then Submission(f, None)
    else Submission(f.(isSubmitting := true, submitError := false), Some(f.data))
  }

  function FinishSubmit(f: Form, outcome: Outcome): (g: Form)
    ensures !g.isSubmitting
    ensures outcome == Delivered ==>
      g.submitSuccess && g.data == EmptyData && g.submitError == f.submitError
    ensures outcome == Failed ==>
      g.submitError && g.data == f.data && g.submitSuccess == f.submitSuccess
  {
    match outcome
    case Delivered => f.(submitSuccess := true, data := EmptyData, isSubmitting := false)
    case Failed => f.(submitError := true, isSubmitting := false)
  }

  /** The whole handler when no other event interleaves with the request. */
  function Submit(f: Form, outcome: Outcome): (s: Submission)
    ensures !Filled(f.data) ==> s == Submission(f, None)
    ensures Filled(f.data) ==> s.request == Some(f.data) && !s.form.isSubmitting
    ensures Filled(f.data) && outcome == Delivered ==>
      s.form == Form(EmptyData, false, true, false)
    ensures Filled(f.data) && outcome == Failed ==>
      s.form == Form(f.data, false, f.submitSuccess, true)
  {
    var begun := BeginSubmit(f);
    if begun.request.None? then begun
    else Submission(FinishSubmit(begun.form, outcome), begun.request)
  }

  /** The 5-second timer after a success. */
  function ExpireSuccess(f: Form): (g: Form)
    ensures !g.submitSuccess && g.(submitSuccess := f.submitSuccess) == f
  {
    f.(submitSuccess := false)
  }

  /** The 5-second timer after a failure. */
  function ExpireError(f: Form): (g: Form)
    ensures !g.submitError && g.(submitError := f.submitError) == f
  {
    f.(submitError := false)
  }

  function EditName(f: Form, v: string): (g: Form)
    ensures g.data.name == v && g.(data := g.data.(name := f.data.name)) == f
  {
    f.(data := f.data.(name := v))
  }

  function EditEmail(f: Form, v: string): (g: Form)
    ensures g.data.email == v && g.(data := g.data.(email := f.data.email)) == f
  {
    f.(data := f.data.(email := v))
  }

  function EditMessage(f: Form, v: string): (g: Form)
    ensures g.data.message == v && g.(data := g.data.(message := f.data.message)) == f
  {
    f.(data := f.data.(message := v))
  }

  function ButtonLabel(f: Form): (b: ButtonText)
    ensures b == Sending <==> f.isSubmitting
  {
    if f.isSubmitting then Sending else Send
  }

  // ---------------------------------------------------------------------------
  // Properties

  /** A delivered message clears the form, so submitting again at once sends nothing. */
  lemma DeliveredFormRejectsResubmit(f: Form)
    requires Filled(f.data)
    ensures var g := Submit(f, Delivered).form;
      !Filled(g.data) && BeginSubmit(g) == Submission(g, None)
  {
  }

  /** A failed request keeps what the user typed, so retrying sends the same body. */
  lemma FailedFormRetriesSameBody(f: Form)
    requires Filled(f.data)
    ensures Submit(Submit(f, Failed).form, Delivered).request == Some(f.data)
  {
  }

  /** While a request is in flight the button reads "sending", and once it settles it
   *  reads "send" again, whatever the outcome. */
  lemma LabelFollowsRequest(f: Form, outcome: Outcome)
    requires Filled(f.data)
    ensures ButtonLabel(BeginSubmit(f).form) == Sending
    ensures ButtonLabel(FinishSubmit(BeginSubmit(f).form, outcome)) == Send
  {
  }

  /** Nothing blocks a second submit while the first is in flight: the button stays
   *  enabled and the guard only checks the fields, so the same body is posted twice. */
  lemma SubmitWhileInFlight(f: Form)
    requires Filled(f.data)
    ensures var first := BeginSubmit(f);
      first.form.isSubmitting && BeginSubmit(first.form).request == Some(f.data)
  {
  }

  /** Edits typed while the request is in flight are discarded by a delivered response. */
  lemma DeliveredDiscardsEditsInFlight(f: Form, v: string)
    requires Filled(f.data)
    ensures FinishSubmit(EditName(BeginSubmit(f).form, v), Delivered).data == EmptyData
  {
  }

  /** The banners clear themselves: once the success timer fires, a delivered form is
   *  back to the initial form; once the error timer fires, a failed form keeps the
   *  typed fields, shows no error banner and no spinner, and keeps the success flag it
   *  had before the submit. */
  lemma BannerLifecycle(f: Form)
    requires Filled(f.data)
    ensures ExpireSuccess(Submit(f, Delivered).form) == InitialForm
    ensures ExpireError(Submit(f, Failed).form) == Form(f.data, false, f.submitSuccess, false)
  {
  }
}

=== FILE: language_context.dfy ===
/** The language preference shared by the whole page.
 *
 *  The provider starts in Spanish, adopts a stored preference when it mounts,
 *  and persists every change under the storage key "language". Consumers outside
 *  a mounted provider see Spanish and a setter that does nothing. Local storage is
 *  a map from key to string; the translation tables' contents are not modelled,
 *  only which table is selected.
 */
module LanguageContext {
  import opened Wrappers

  datatype Language = Es | En | De

  type Storage = map<string, string>

  const StorageKey: string := "language"

  const DefaultLanguage: Language := Es

  /** The translation table loaded from the locale file of `locale`. */
  datatype Table = Table(locale: Language)

  datatype Provider = Provider(language: Language, mounted: bool)

  const InitialProvider: Provider := Provider(DefaultLanguage, false)

  /** What `useLanguage` hands to a consumer; `live` is false for the no-op setter. */
  datatype ContextValue = ContextValue(language: Language, t: Table, live: bool)

  /** The result of a setter call: the provider and the storage after it. */
  datatype Persisted = Persisted(provider: Provider, storage: Storage)

  function Code(l: Language): string {
    match l
    case Es => "es"
    case En => "en"
    case De => "de"
  }

  /** The language whose translation table a stored string names, if any. */
  function Parse(s: string): (l: Option<Language>)
    ensures l.Some? ==> Code(l.value) == s
  {
    if s == "es" then Some(Es)
    else if s == "en" then Some(En)
    else if s == "de" then Some(De)
    else None
  }

  /** `t`: the table of the current language. */
  function Translations(l: Language): (t: Table)
    ensures t.locale == l
  {
    Table(l)
  }

  /** The mount effect: adopt the stored value only if it names a table; mount either way. */
  function Mount(p: Provider, storage: Storage): (q: Provider)
    ensures q.mounted
    ensures StorageKey in storage && Parse(storage[StorageKey]).Some? ==>
      Code(q.language) == storage[StorageKey]
    ensures !(StorageKey in storage && Parse(storage[StorageKey]).Some?) ==> q.language == p.language
  {
    if StorageKey in storage && Parse(storage[StorageKey]).Some? then
      Provider(Parse(storage[StorageKey]).value, true)
    else
      p.(mounted := true)
  }

  /** The provider's setter: update the state and write the code under "language". */
  function SetLanguage(p: Provider, storage: Storage, l: Language): (r: Persisted)
    ensures r.provider == p.(language := l)
    ensures r.storage.Keys == storage.Keys + {StorageKey}
    ensures r.storage[StorageKey] == Code(l)
    ensures forall k :: k in storage && k != StorageKey ==> r.storage[k] == storage[k]
  {
    Persisted(p.(language := l), storage[StorageKey := Code(l)])
  }

  /** `useLanguage` for a component whose nearest provider is `p`, if there is one.
   *  An unmounted provider renders its children without a context. */
  function UseLanguage(p: Option<Provider>): (v: ContextValue)
    ensures !(p.Some? && p.value.mounted) ==> v == ContextValue(Es, Table(Es), false)
    ensures p.Some? && p.value.mounted ==> v.live && v.language == p.value.language
    ensures v.t == Table(v.language)
  {
    if p.Some? && p.value.mounted then ContextValue(p.value.language, Translations(p.value.language), true)
    else ContextValue(DefaultLanguage, Translations(DefaultLanguage), false)
  }

  /** Calling the setter a consumer received from `UseLanguage(Some(p))`. */
  function ConsumerSetLanguage(p: Provider, storage: Storage, l: Language): (r: Persisted)
    ensures p.mounted ==> r == SetLanguage(p, storage, l)
    ensures !p.mounted ==> r == Persisted(p, storage)
  {
    if UseLanguage(Some(p)).live then SetLanguage(p, storage, l) else Persisted(p, storage)
  }

  // ---------------------------------------------------------------------------
  // Properties

  /** Codes and stored strings correspond one to one. */
  lemma CodeRoundTrip(l: Language, s: string)
    ensures Parse(Code(l)) == Some(l)
    ensures Parse(s) == Some(l) <==> s == Code(l)
  {
  }

  /** A fresh provider mounting over empty or unusable storage stays Spanish. */
  lemma DefaultWithoutPreference(storage: Storage)
    requires StorageKey !in storage || Parse(storage[StorageKey]).None?
    ensures Mount(InitialProvider, storage) == Provider(Es, true)
  {
  }

  /** A choice survives a reload: a fresh provider mounting over the storage written by
   *  the setter comes up in the chosen language. */
  lemma PreferenceSurvivesReload(p: Provider, storage: Storage, l: Language)
    ensures Mount(InitialProvider, SetLanguage(p, storage, l).storage).language == l
    ensures UseLanguage(Some(Mount(InitialProvider, SetLanguage(p, storage, l).storage))).t == Table(l)
  {
    CodeRoundTrip(l, Code(l));
  }

  /** A consumer rendered before the provider mounts sees Spanish, and its setter
   *  changes neither the state nor the storage. */
  lemma UnmountedConsumerIsInert(storage: Storage, l: Language)
    ensures UseLanguage(Some(InitialProvider)) == UseLanguage(None)
    ensures UseLanguage(None).language == Es
    ensures ConsumerSetLanguage(InitialProvider, storage, l) == Persisted(InitialProvider, storage)
  {
  }
}

=== FILE: language_selector.dfy ===
/** The flag button and drop-down that switch the page language.
 *
 *  The displayed entry is looked up by code in a fixed three-entry table with a
 *  fall-back to the first entry; choosing an entry sets the language through the
 *  context and closes the drop-down.
 */
module LanguageSelector {
  import opened Wrappers
  import opened LanguageContext

  /** An entry of the table: the language and the label shown beside its flag. */
  datatype Entry = Entry(lang: Language, shown: string)

  const Languages: seq<Entry> := [Entry(Es, "ES"), Entry(En, "US"), Entry(De, "DE")]

  /** Whether the drop-down is open; it starts closed. */
  datatype Selector = Selector(isOpen: bool)

  const InitialSelector: Selector := Selector(false)

  /** The page state the selector reads and writes. */
  datatype Page = Page(selector: Selector, provider: Provider, storage: Storage)

  /** Entry `i` is the first one whose code is `code`. */
  predicate FirstWithCode(entries: seq<Entry>, code: string, i: int)
    requires 0 <= i < |entries|
  {
    Code(entries[i].lang) == code && forall j :: 0 <= j < i ==> Code(entries[j].lang) != code
  }

  /** `Array.prototype.find`: the first entry whose code is `code`. */
  function Find(entries: seq<Entry>, code: string): (r: Option<Entry>)
    ensures r.Some? ==> exists i :: 0 <= i < |entries| && entries[i] == r.value && FirstWithCode(entries, code, i)
    ensures r.None? <==> forall i :: 0 <= i < |entries| ==> Code(entries[i].lang) != code
    decreases |entries|
  {
    if |entries| == 0 then None
    else if Code(entries[0].lang) == code then Some(entries[0])
    else
      var rest := Find(entries[1..], code);
      assert rest.Some? ==> exists i :: 0 <= i < |entries| && entries[i] == rest.value && FirstWithCode(entries, code, i) by {
        if rest.Some? {
          var k :| 0 <= k < |entries[1..]| && entries[1..][k] == rest.value && FirstWithCode(entries[1..], code, k);
          assert entries[k + 1] == rest.value && FirstWithCode(entries, code, k + 1);
        }
      }
      assert forall i :: 1 <= i < |entries| ==> entries[i] == entries[1..][i - 1];
      rest
  }

  /** The entry whose flag the button shows for the runtime value `language`. */
  function CurrentEntry(language: string): (e: Entry)
    ensures e in Languages
    ensures Find(Languages, language).Some? ==> e == Find(Languages, language).value && Code(e.lang) == language
    ensures Find(Languages, language).None? ==> e == Languages[0]
  {
    Find(Languages, language).GetOr(Languages[0])
  }

  /** Whether entry `e` carries the active marker. */
  predicate IsActive(language: Language, e: Entry) {
    language == e.lang
  }

  function ActiveEntries(language: Language): set<int> {
    set i | 0 <= i < |Languages| && IsActive(language, Languages[i])
  }

  /** The flag button. */
  function ToggleMenu(s: Selector): (t: Selector)
    ensures t.isOpen == !s.isOpen
  {
    Selector(!s.isOpen)
  }

  /** A click on the backdrop. */
  function CloseMenu(s: Selector): (t: Selector)
    ensures !t.isOpen
  {
    Selector(false)
  }

  /** A click on entry `e`: set the language through the context, then close. */
  function Choose(page: Page, e: Entry): (q: Page)
    ensures !q.selector.isOpen
    ensures var r := ConsumerSetLanguage(page.provider, page.storage, e.lang);
      q.provider == r.provider && q.storage == r.storage
  {
    var r := ConsumerSetLanguage(page.provider, page.storage, e.lang);
    Page(CloseMenu(page.selector), r.provider, r.storage)
  }

  /** A click on the backdrop leaves the language and the storage alone. */
  function ClickBackdrop(page: Page): (q: Page)
    ensures !q.selector.isOpen
    ensures q.provider == page.provider && q.storage == page.storage
  {
    page.(selector := CloseMenu(page.selector))
  }

  // ---------------------------------------------------------------------------
  // Properties

  /** The table lists es, en and de with labels ES, US and DE, codes pairwise distinct. */
  lemma TableShape()
    ensures |Languages| == 3
    ensures Code(Languages[0].lang) == "es" && Languages[0].shown == "ES"
    ensures Code(Languages[1].lang) == "en" && Languages[1].shown == "US"
    ensures Code(Languages[2].lang) == "de" && Languages[2].shown == "DE"
    ensures forall i, j :: 0 <= i < j < |Languages| ==> Code(Languages[i].lang) != Code(Languages[j].lang)
  {
  }

  /** Every language finds its own entry; any other runtime value falls back to ES. */
  lemma CurrentEntryLookup(l: Language, other: string)
    requires other != "es" && other != "en" && other != "de"
    ensures CurrentEntry(Code(l)).lang == l
    ensures CurrentEntry(other) == Entry(Es, "ES")
  {
    assert Languages[0].lang == Es && Languages[1].lang == En && Languages[2].lang == De;
    assert Find(Languages, Code(l)).Some?;
  }

  /** Exactly one entry carries the active marker: the one for the current language. */
  lemma SingleActiveEntry(l: Language)
    ensures forall i :: 0 <= i < |Languages| ==> (i in ActiveEntries(l) <==> Languages[i].lang == l)
    ensures |ActiveEntries(l)| == 1
  {
    var k := if l == Es then 0 else if l == En then 1 else 2;
    forall i | 0 <= i < |Languages|
      ensures i in ActiveEntries(l) <==> i == k
    {
    }
    assert ActiveEntries(l) == {k};
  }

  /** Choosing an entry in a mounted page switches to it, persists it, closes the menu,
   *  and the flag button then shows that entry. */
  lemma ChooseSwitchesLanguage(page: Page, e: Entry)
    requires page.provider.mounted
    ensures Choose(page, e).provider.language == e.lang
    ensures Choose(page, e).storage[StorageKey] == Code(e.lang)
    ensures !Choose(page, e).selector.isOpen
    ensures CurrentEntry(Code(Choose(page, e).provider.language)).lang == e.lang
  {
    CurrentEntryLookup(e.lang, "");
  }

  /** The drop-down starts closed, and two flag clicks leave it as it was. */
  lemma ToggleTwice(s: Selector)
    ensures !InitialSelector.isOpen
    ensures ToggleMenu(InitialSelector).isOpen
    ensures ToggleMenu(ToggleMenu(s)) == s
  {
  }
}

=== FILE: navbar.dfy ===
/** The fixed navigation bar: the theme toggle, the pop-up menu, and the label of
 *  the section being read.
 *
 *  At mount the bar registers one scroll trigger per section element present in
 *  the DOM; entering a registered section (scrolling down or back up) shows that
 *  section's label key. The theme itself lives in the theme provider and is a
 *  plain value here.
 */
module Navbar {
  import opened Wrappers

  /** A section element id and the key of its label. */
  datatype SectionKey = SectionKey(id: string, key: string)

  const Sections: seq<SectionKey> := [
    SectionKey("home", "introduction"),
    SectionKey("about", "about"),
    SectionKey("services", "experience"),
    SectionKey("work", "projects"),
    SectionKey("contact", "contact")
  ]

  /** The keys of the label table. */
  const SectionTextKeys: set<string> := {"introduction", "about", "experience", "projects", "contact"}

  const InitialSection: string := "introduction"

  datatype Nav = Nav(menuOpen: bool, currentSection: string)

  const InitialNav: Nav := Nav(false, InitialSection)

  /** User and scroll events: the menu button, the backdrop, a menu item, and a scroll
   *  trigger firing on entering a section (downwards or back upwards). */
  datatype NavEvent = MenuButton | Backdrop | MenuItem | Enter(id: string) | EnterBack(id: string)

  /** The theme button: "dark" becomes "light", anything else (including no theme yet) "dark". */
  function ToggleTheme(theme: Option<string>): (next: string)
    ensures theme == Some("dark") ==> next == "light"
    ensures theme != Some("dark") ==> next == "dark"
  {
    if theme == Some("dark") then "light" else "dark"
  }

  /** The key paired with `id` in `table`, if any. */
  function Lookup(table: seq<SectionKey>, id: string): (k: Option<string>)
    ensures k.None? <==> forall i :: 0 <= i < |table| ==> table[i].id != id
    ensures k.Some? ==> exists i :: 0 <= i < |table| && table[i] == SectionKey(id, k.value)
    decreases |table|
  {
    if |table| == 0 then None
    else if table[0].id == id then Some(table[0].key)
    else
      var k := Lookup(table[1..], id);
      assert forall i :: 1 <= i < |table| ==> table[i] == table[1..][i - 1];
      k
  }

  /** The label key of section element `id`, if it is one of the tracked sections. */
  function KeyOf(id: string): (k: Option<string>)
    ensures k.Some? <==> exists i :: 0 <= i < |Sections| && Sections[i].id == id
    ensures k.Some? ==> k.value in SectionTextKeys
  {
    Lookup(Sections, id)
  }

  /** The ids that get a trigger: the tracked sections whose element exists at mount. */
  function Registered(present: set<string>): (r: set<string>)
    ensures forall id :: id in r <==> id in present && KeyOf(id).Some?
  {
    set i | 0 <= i < |Sections| && Sections[i].id in present :: Sections[i].id
  }

  /** A section trigger fires: only a registered section moves the label. */
  function EnterSection(n: Nav, registered: set<string>, id: string): (m: Nav)
    ensures m.menuOpen == n.menuOpen
    ensures id in registered && KeyOf(id).Some? ==> m.currentSection == KeyOf(id).value
    ensures !(id in registered && KeyOf(id).Some?) ==> m == n
  {
    if id in registered && KeyOf(id).Some? then n.(currentSection := KeyOf(id).value) else n
  }

  function Step(n: Nav, registered: set<string>, e: NavEvent): (m: Nav)
    ensures e == MenuButton ==> m == n.(menuOpen := !n.menuOpen)
    ensures e == Backdrop || e == MenuItem ==> m == n.(menuOpen := false)
    ensures e.Enter? || e.EnterBack? ==> m == EnterSection(n, registered, e.id)
  {
    match e
    case MenuButton => n.(menuOpen := !n.menuOpen)
    case Backdrop => n.(menuOpen := false)
    case MenuItem => n.(menuOpen := false)
    case Enter(id) => EnterSection(n, registered, id)
    case EnterBack(id) => EnterSection(n, registered, id)
  }

  function Run(n: Nav, registered: set<string>, events: seq<NavEvent>): Nav
    decreases |events|
  {
    if |events| == 0 then n else Run(Step(n, registered, events[0]), registered, events[1..])
  }

  // ---------------------------------------------------------------------------
  // Properties

  /** The toggle always yields one of the two themes, and two toggles from either
   *  return to it. */
  lemma ThemeToggleInvolution(theme: string)
    requires theme == "dark" || theme == "light"
    ensures ToggleTheme(Some(theme)) != theme
    ensures ToggleTheme(Some(ToggleTheme(Some(theme)))) == theme
  {
  }

  /** In a table with distinct ids, looking up the id of entry `i` yields its key
   *  (from `Lookup`'s contract: the match it returns is the only entry with that id). */
  lemma LookupFindsEntry(table: seq<SectionKey>, i: int)
    requires 0 <= i < |table|
    requires forall a, b :: 0 <= a < b < |table| ==> table[a].id != table[b].id
    ensures Lookup(table, table[i].id) == Some(table[i].key)
  {
  }

  /** The table maps home, about, services, work and contact to introduction, about,
   *  experience, projects and contact, and every key has a label. */
  lemma SectionTable()
    ensures forall i :: 0 <= i < |Sections| ==> KeyOf(Sections[i].id) == Some(Sections[i].key)
    ensures forall i :: 0 <= i < |Sections| ==> Sections[i].key in SectionTextKeys
  {
    forall i | 0 <= i < |Sections|
      ensures KeyOf(Sections[i].id) == Some(Sections[i].key)
    {
      LookupFindsEntry(Sections, i);
    }
  }

  /** The label shown is always one with a text: every reachable `currentSection` is a
   *  key of the label table. */
  lemma {:induction false} LabelAlwaysDefined(n: Nav, registered: set<string>, events: seq<NavEvent>)
    requires n.currentSection in SectionTextKeys
    ensures Run(n, registered, events).currentSection in SectionTextKeys
    decreases |events|
  {
    if |events| > 0 {
      LabelAlwaysDefined(Step(n, registered, events[0]), registered, events[1..]);
    }
  }

  /** A section whose element was missing at mount never changes the label, whatever
   *  the events. */
  lemma {:induction false} MissingSectionIsSilent(n: Nav, present: set<string>, id: string, events: seq<NavEvent>)
    requires id !in present
    requires forall i :: 0 <= i < |events| ==> events[i] == Enter(id) || events[i] == EnterBack(id)
    ensures Run(n, Registered(present), events) == n
    decreases |events|
  {
    if |events| > 0 {
      MissingSectionIsSilent(n, present, id, events[1..]);
    }
  }

  /** The menu starts closed; the button opens and closes it, and closing is idempotent. */
  lemma MenuTransitions(n: Nav, registered: set<string>)
    ensures !InitialNav.menuOpen && InitialNav.currentSection == "introduction"
    ensures Step(Step(n, registered, MenuButton), registered, MenuButton) == n
    ensures !Step(Step(n, registered, Backdrop), registered, MenuItem).menuOpen
  {
  }
}

=== FILE: section_tracker.dfy ===
/** The home page's active-section tracker and its navigation bar.
 *
 *  On every scroll the page probes the point half a viewport below the top of
 *  the window and highlights the last section (in page order) whose box
 *  contains it. The DOM is given as a map from element id to its box.
 */
module SectionTracker {
  import opened Wrappers

  const SectionIds: seq<string> := ["home", "work", "services", "about", "contact"]

  /** Labels of the navigation buttons, one per section id, in the same order. */
  const NavLabels: seq<string> := ["Home", "Work", "Services", "About", "Contact"]

  /** Layout of an element: `offsetTop` and `offsetHeight`. */
  datatype Box = Box(top: real, height: real)

  type Dom = map<string, Box>

  /** Index of the highlighted section; it starts at 0. */
  const InitialSection: nat := 0

  function ProbePosition(scrollY: real, innerHeight: real): real {
    scrollY + innerHeight / 2.0
  }

  /** Half-open containment: the top edge belongs to the box, the bottom edge does not. */
  predicate Contains(b: Box, pos: real) {
    b.top <= pos < b.top + b.height
  }

  /** Section `k` exists in the DOM and its box contains `pos`. */
  predicate MatchesAt(dom: Dom, k: int, pos: real)
    requires 0 <= k < |SectionIds|
  {
    SectionIds[k] in dom && Contains(dom[SectionIds[k]], pos)
  }

  /** The `forEach` over sections `k ..` with `acc` holding the section set so far:
   *  every match overwrites the previous value. */
  function ScanFrom(dom: Dom, pos: real, acc: nat, k: nat): (r: nat)
    requires k <= |SectionIds|
    ensures (exists j :: k <= j < |SectionIds| && MatchesAt(dom, j, pos)) ==>
      k <= r < |SectionIds| && MatchesAt(dom, r, pos) &&
      forall j :: r < j < |SectionIds| ==> !MatchesAt(dom, j, pos)
    ensures (forall j :: k <= j < |SectionIds| ==> !MatchesAt(dom, j, pos)) ==> r == acc
    decreases |SectionIds| - k
  {
    if k == |SectionIds| then acc
    else ScanFrom(dom, pos, if MatchesAt(dom, k, pos) then k else acc, k + 1)
  }

  /** The scroll handler: the last matching section wins; with no match (or every
   *  matching element missing) the highlighted section is kept. */
  function HandleScroll(current: nat, dom: Dom, scrollY: real, innerHeight: real): (next: nat)
    ensures var pos := ProbePosition(scrollY, innerHeight);
      && ((exists j :: 0 <= j < |SectionIds| && MatchesAt(dom, j, pos)) ==>
            next < |SectionIds| && MatchesAt(dom, next, pos) &&
            forall j :: next < j < |SectionIds| ==> !MatchesAt(dom, j, pos))
      && ((forall j :: 0 <= j < |SectionIds| ==> !MatchesAt(dom, j, pos)) ==> next == current)
    ensures current < |SectionIds| ==> next < |SectionIds|
  {
    ScanFrom(dom, ProbePosition(scrollY, innerHeight), current, 0)
  }

  /** One scroll event: the window's scroll offset and height, and the layout at that time. */
  datatype ScrollEvent = ScrollEvent(dom: Dom, scrollY: real, innerHeight: real)

  /** The highlighted section after a sequence of scroll events. */
  function Track(current: nat, events: seq<ScrollEvent>): nat
    decreases |events|
  {
    if |events| == 0 then current
    else
      var e := events[0];
      Track(HandleScroll(current, e.dom, e.scrollY, e.innerHeight), events[1..])
  }

  /** The nav bar: button `i` is highlighted iff `i` is the current section. */
  function Highlights(current: nat): (h: seq<bool>)
    ensures |h| == |NavLabels|
  {
    seq(|NavLabels|, i => i == current)
  }

  function HighlightedButtons(current: nat): set<int> {
    set i | 0 <= i < |NavLabels| && Highlights(current)[i]
  }

  /** Clicking nav button `index` scrolls the element with id `SectionIds[index]` into
   *  view, if it exists; the result is the id scrolled to. */
  function ScrollToSection(dom: Dom, index: int): (target: Option<string>)
    ensures target.Some? <==> 0 <= index < |SectionIds| && SectionIds[index] in dom
    ensures target.Some? ==> target.value == SectionIds[index] && target.value in dom
  {
    if 0 <= index < |SectionIds| && SectionIds[index] in dom then Some(SectionIds[index]) else None
  }

  // ---------------------------------------------------------------------------
  // Properties

  /** Whatever the scrolls, the highlighted section stays a valid index. */
  lemma {:induction false} TrackStaysValid(current: nat, events: seq<ScrollEvent>)
    requires current < |SectionIds|
    ensures Track(current, events) < |SectionIds|
    decreases |events|
  {
    if |events| > 0 {
      var e := events[0];
      TrackStaysValid(HandleScroll(current, e.dom, e.scrollY, e.innerHeight), events[1..]);
    }
  }

  /** Exactly one nav button is highlighted whenever the section index is valid. */
  lemma SingleHighlight(current: nat)
    requires current < |SectionIds|
    ensures forall i :: 0 <= i < |NavLabels| ==> (Highlights(current)[i] <==> i == current)
    ensures HighlightedButtons(current) == {current}
  {
    forall i | 0 <= i < |NavLabels|
      ensures i in HighlightedButtons(current) <==> i == current
    {
    }
  }

  /** When two sections both contain the probe, the later one in page order is chosen. */
  lemma LaterSectionWins(current: nat, dom: Dom, scrollY: real, innerHeight: real, i: int, j: int)
    requires 0 <= i < j < |SectionIds|
    requires MatchesAt(dom, i, ProbePosition(scrollY, innerHeight))
    requires MatchesAt(dom, j, ProbePosition(scrollY, innerHeight))
    ensures HandleScroll(current, dom, scrollY, innerHeight) != i
    ensures HandleScroll(current, dom, scrollY, innerHeight) >= j
  {
  }

  /** `s` with an ASCII lower-case first letter turned upper-case. */
  function Capitalized(s: string): (t: string)
    ensures |t| == |s| && (|s| > 0 ==> t[1..] == s[1..])
    ensures |s| > 0 && 'a' <= s[0] <= 'z' ==> t[0] as int == s[0] as int - 32
    ensures !(|s| > 0 && 'a' <= s[0] <= 'z') ==> t == s
  {
    if |s| > 0 && 'a' <= s[0] <= 'z' then [(s[0] as int - 32) as char] + s[1..] else s
  }

  /** Button `i` is labelled with the capitalised id of the section it scrolls to,
   *  and scrolls there when that element exists. */
  lemma NavTargets(dom: Dom, i: int)
    requires 0 <= i < |NavLabels|
    ensures |NavLabels| == |SectionIds|
    ensures NavLabels[i] == Capitalized(SectionIds[i])
    ensures SectionIds[i] in dom ==> ScrollToSection(dom, i) == Some(SectionIds[i])
    ensures SectionIds[i] !in dom ==> ScrollToSection(dom, i) == None
  {
    LabelsNameSections();
  }

  /** Each button label is its section id with the first letter capitalised. */
  lemma LabelsNameSections()
    ensures |NavLabels| == |SectionIds|
    ensures forall i :: 0 <= i < |NavLabels| ==> NavLabels[i] == Capitalized(SectionIds[i])
  {
    assert Capitalized("home") == "Home";
    assert Capitalized("work") == "Work";
    assert Capitalized("services") == "Services";
    assert Capitalized("about") == "About";
    assert Capitalized("contact") == "Contact";
  }
}

=== FILE: typewriter.dfy ===
/** The typewriter text reveal as a discrete event machine.
 *
 *  The mount effect arms a start timer (the `delay`); when it fires, an interval
 *  ticks (every `speed` ms) and each tick reveals one more character; the tick
 *  after the last character stops the interval, marks the text complete and calls
 *  `onComplete`. A ref guard keeps a second effect run from starting another
 *  sequence. Timers are events here, not time.
 */
module Typewriter {

  /** Where the reveal sequence is: nothing armed, start timer pending, interval
   *  running with its counter, or interval stopped. */
  datatype Phase = Idle | Waiting | Running(index: nat) | Stopped

  datatype Writer = Writer(
    visibleChars: nat,
    isComplete: bool,
    hasStarted: bool,
    phase: Phase,
    completions: nat  // calls made to `onComplete`
  )

  /** React events reaching the component: the effect runs, the effect's cleanup
   *  runs (unmount, Strict Mode's simulated unmount, or a changed dependency), the
   *  start timer fires, the interval fires. */
  datatype Event = EffectRun | EffectCleanup | TimerFired | IntervalTick

  const InitialWriter: Writer := Writer(0, false, false, Idle, 0)

  /** The state every reachable writer satisfies for `text`. */
  predicate Consistent(text: string, w: Writer) {
    && w.visibleChars <= |text|
    && (w.isComplete <==> w.phase == Stopped)
    && (w.completions == if w.phase == Stopped then 1 else 0)
    && (!w.hasStarted ==> w.phase == Idle)
    && (w.phase.Idle? || w.phase.Waiting? ==> w.visibleChars == 0)
    && (w.phase.Running? ==> w.visibleChars == w.phase.index)
    && (w.phase == Stopped ==> w.visibleChars == |text|)
  }

  /** The effect body: guarded by `hasStarted`, it arms the start timer once. */
  function Effect(w: Writer): (v: Writer)
    ensures w.hasStarted ==> v == w
    ensures !w.hasStarted ==> v == w.(hasStarted := true, phase := Waiting)
  {
    if w.hasStarted then w else w.(hasStarted := true, phase := Waiting)
  }

  /** The effect's cleanup as written: `clearTimeout` cancels a pending start, and
   *  nothing else happens; the guard stays set and a running interval keeps going,
   *  since the cleanup returned from the timer callback is discarded. */
  function Cleanup(w: Writer): (v: Writer)
    ensures w.phase == Waiting ==> v == w.(phase := Idle)
    ensures w.phase != Waiting ==> v == w
  {
    if w.phase == Waiting then w.(phase := Idle) else w
  }

  /** The cleanup with the guard released when the pending start is cancelled, so the
   *  next effect run arms the timer again. */
  function RestartableCleanup(w: Writer): (v: Writer)
    ensures w.phase == Waiting ==> v == w.(phase := Idle, hasStarted := false)
    ensures w.phase != Waiting ==> v == w
  {
    if w.phase == Waiting then w.(phase := Idle, hasStarted := false) else w
  }

  /** The start timer fires: the interval starts with its counter at 0. */
  function TimerFires(w: Writer): (v: Writer)
    ensures w.phase == Waiting ==> v == w.(phase := Running(0))
    ensures w.phase != Waiting ==> v == w
  {
    if w.phase == Waiting then w.(phase := Running(0)) else w
  }

  /** One interval tick: reveal one more character, or, once all are shown, stop,
   *  mark complete and call `onComplete`. */
  function Tick(text: string, w: Writer): (v: Writer)
    ensures Consistent(text, w) ==> Consistent(text, v)
    ensures Consistent(text, w) && w.phase.Running? && w.phase.index < |text| ==>
      v.visibleChars == w.visibleChars + 1 && v.phase == Running(w.phase.index + 1) && !v.isComplete
    ensures w.phase.Running? && w.phase.index >= |text| ==>
      v.isComplete && v.completions == w.completions + 1 && v.phase == Stopped && v.visibleChars == w.visibleChars
    ensures !w.phase.Running? ==> v == w
  {
    match w.phase
    case Running(i) =>
      if i < |text| then w.(phase := Running(i + 1), visibleChars := i + 1)
      else w.(phase := Stopped, isComplete := true, completions := w.completions + 1)
    case _ => w
  }

  /** The machine with the restartable cleanup. */
  function Step(text: string, w: Writer, e: Event): Writer
  {
    match e
    case EffectRun => Effect(w)
    case EffectCleanup => RestartableCleanup(w)
    case TimerFired => TimerFires(w)
    case IntervalTick => Tick(text, w)
  }

  /** The machine as written. */
  function StepAsWritten(text: string, w: Writer, e: Event): Writer
  {
    match e
    case EffectRun => Effect(w)
    case EffectCleanup => Cleanup(w)
    case TimerFired => TimerFires(w)
    case IntervalTick => Tick(text, w)
  }

  /** Which characters are shown: character `i` iff `i < visibleChars`. */
  function Shown(text: string, w: Writer): (shown: seq<bool>)
    requires Consistent(text, w)
    ensures |shown| == |text|
    ensures forall i :: 0 <= i < |shown| ==> (shown[i] <==> i < w.visibleChars)
  {
    seq(|text|, i => i < w.visibleChars)
  }

  /** `k` interval ticks. */
  function Ticks(k: nat): (es: seq<Event>)
    ensures |es| == k && forall i :: 0 <= i < k ==> es[i] == IntervalTick
  {
    seq(k, _ => IntervalTick)
  }

  /** The state after a sequence of events, with the restartable cleanup. */
  function Run(text: string, w: Writer, events: seq<Event>): Writer
    decreases |events|
  {
    if |events| == 0 then w
    else Run(text, Step(text, w, events[0]), events[1..])
  }

  /** The state after a sequence of events, as written. */
  function RunAsWritten(text: string, w: Writer, events: seq<Event>): Writer
    decreases |events|
  {
    if |events| == 0 then w
    else RunAsWritten(text, StepAsWritten(text, w, events[0]), events[1..])
  }

  // ---------------------------------------------------------------------------
  // Properties

  lemma InitialConsistent(text: string)
    ensures Consistent(text, InitialWriter)
    ensures InitialWriter.visibleChars == 0 && !InitialWriter.isComplete
  {
  }

  /** Every event keeps the writer consistent, never hides a character, reveals at
   *  most one, and never takes back completion. */
  lemma StepPreserves(text: string, w: Writer, e: Event)
    requires Consistent(text, w)
    ensures var v := Step(text, w, e);
      && Consistent(text, v)
      && w.visibleChars <= v.visibleChars <= w.visibleChars + 1
      && w.completions <= v.completions
      && (w.isComplete ==> v == w)
  {
  }

  lemma StepAsWrittenPreserves(text: string, w: Writer, e: Event)
    requires Consistent(text, w)
    ensures var v := StepAsWritten(text, w, e);
      && Consistent(text, v)
      && w.visibleChars <= v.visibleChars <= w.visibleChars + 1
      && (w.isComplete ==> v == w)
  {
  }

  /** Over any event sequence of the machine with the restartable cleanup: characters are never hidden again, at most
   *  `|text|` are shown, and `onComplete` is called at most once. */
  lemma {:induction false} RunMonotone(text: string, w: Writer, events: seq<Event>)
    requires Consistent(text, w)
    ensures var v := Run(text, w, events);
      && Consistent(text, v)
      && w.visibleChars <= v.visibleChars <= |text|
      && w.completions <= v.completions <= 1
    decreases |events|
  {
    if |events| > 0 {
      StepPreserves(text, w, events[0]);
      RunMonotone(text, Step(text, w, events[0]), events[1..]);
    }
  }

  /** The same over any event sequence for the machine as written. */
  lemma {:induction false} RunAsWrittenMonotone(text: string, w: Writer, events: seq<Event>)
    requires Consistent(text, w)
    ensures var v := RunAsWritten(text, w, events);
      && Consistent(text, v)
      && w.visibleChars <= v.visibleChars <= |text|
      && w.completions <= v.completions <= 1
    decreases |events|
  {
    if |events| > 0 {
      StepAsWrittenPreserves(text, w, events[0]);
      RunAsWrittenMonotone(text, StepAsWritten(text, w, events[0]), events[1..]);
    }
  }

  /** A second effect run without a cleanup in between starts nothing new. */
  lemma SecondEffectIsGuarded(text: string, w: Writer)
    requires Consistent(text, w) && w.hasStarted
    ensures Step(text, w, EffectRun) == w
    ensures StepAsWritten(text, w, EffectRun) == w
  {
  }

  /** From the running interval at counter `i`, `k` ticks reveal exactly `k` more
   *  characters while any remain. */
  lemma {:induction false} TicksReveal(text: string, w: Writer, k: nat)
    requires Consistent(text, w) && w.phase.Running?
    requires w.phase.index + k <= |text|
    ensures Run(text, w, Ticks(k)) == w.(phase := Running(w.phase.index + k), visibleChars := w.phase.index + k)
    decreases k
  {
    if k > 0 {
      assert Ticks(k)[1..] == Ticks(k - 1);
      TicksReveal(text, Step(text, w, IntervalTick), k - 1);
    }
  }

  /** The interval started at counter 0 types the whole text in `|text|` ticks and
   *  completes, calling `onComplete` once, on the next one. */
  lemma TypesWholeText(text: string, started: Writer)
    requires started == Writer(0, false, true, Running(0), 0)
    ensures var w := Run(text, started, Ticks(|text| + 1));
      w.visibleChars == |text| && w.isComplete && w.completions == 1
  {
    assert Ticks(|text| + 1) == Ticks(|text|) + Ticks(1);
    RunAppend(text, started, Ticks(|text|), Ticks(1));
    TicksReveal(text, started, |text|);
    var typed := started.(phase := Running(|text|), visibleChars := |text|);
    assert Run(text, typed, Ticks(1)) == Step(text, typed, IntervalTick);
  }

  /** With the restartable cleanup, Strict Mode's run, cleanup, run still types the
   *  whole text: after the start timer and `|text| + 1` ticks every character is
   *  shown and `onComplete` has been called exactly once (for an empty text, on the
   *  first tick). */
  lemma StrictModeTypesOnce(text: string)
    ensures var w := Run(text, InitialWriter, [EffectRun, EffectCleanup, EffectRun, TimerFired] + Ticks(|text| + 1));
      w.visibleChars == |text| && w.isComplete && w.completions == 1
  {
    var pre := [EffectRun, EffectCleanup, EffectRun, TimerFired];
    var started := Writer(0, false, true, Running(0), 0);
    RunAppend(text, InitialWriter, pre, Ticks(|text| + 1));
    assert Run(text, InitialWriter, pre) == started;
    TypesWholeText(text, started);
  }

  /** Interval ticks never reach the cleanup, so both machines agree on them. */
  lemma {:induction false} TicksAgree(text: string, w: Writer, k: nat)
    ensures RunAsWritten(text, w, Ticks(k)) == Run(text, w, Ticks(k))
    decreases k
  {
    if k > 0 {
      assert Ticks(k)[1..] == Ticks(k - 1);
      TicksAgree(text, Step(text, w, IntervalTick), k - 1);
    }
  }

  /** Without Strict Mode the program as written types the whole text: one effect
   *  run, the start timer and `|text| + 1` ticks show every character and call
   *  `onComplete` exactly once. */
  lemma AsWrittenTypesOnce(text: string)
    ensures var w := RunAsWritten(text, InitialWriter, [EffectRun, TimerFired] + Ticks(|text| + 1));
      w.visibleChars == |text| && w.isComplete && w.completions == 1
  {
    var pre := [EffectRun, TimerFired];
    var started := Writer(0, false, true, Running(0), 0);
    RunAsWrittenAppend(text, InitialWriter, pre, Ticks(|text| + 1));
    assert RunAsWritten(text, InitialWriter, pre) == started;
    TicksAgree(text, started, |text| + 1);
    TypesWholeText(text, started);
  }

  /** After the same run every character of the text is shown. */
  lemma AsWrittenShowsEveryCharacter(text: string)
    ensures var w := RunAsWritten(text, InitialWriter, [EffectRun, TimerFired] + Ticks(|text| + 1));
      Consistent(text, w) && forall i :: 0 <= i < |text| ==> Shown(text, w)[i]
  {
    var events := [EffectRun, TimerFired] + Ticks(|text| + 1);
    InitialConsistent(text);
    RunAsWrittenMonotone(text, InitialWriter, events);
    AsWrittenTypesOnce(text);
  }

  /** For an empty text the first tick after the timer completes, showing nothing. */
  lemma EmptyTextCompletesOnFirstTick()
    ensures var w := Run("", InitialWriter, [EffectRun, TimerFired, IntervalTick]);
      w.isComplete && w.visibleChars == 0 && w.completions == 1
  {
    assert Run("", InitialWriter, [EffectRun, TimerFired]) == Writer(0, false, true, Running(0), 0) by {
      assert [EffectRun, TimerFired, IntervalTick][1..] == [TimerFired, IntervalTick];
    }
    assert [EffectRun, TimerFired, IntervalTick][1..][1..] == [IntervalTick];
  }

  /** As written, Strict Mode's run, cleanup, run leaves the guard set and no timer
   *  armed: no later timer or tick reveals anything, and the text never completes. */
  lemma StrictModeNeverStartsAsWritten(text: string, later: seq<Event>)
    requires forall i :: 0 <= i < |later| ==> later[i] == TimerFired || later[i] == IntervalTick
    ensures var w := RunAsWritten(text, InitialWriter, [EffectRun, EffectCleanup, EffectRun]);
      w == Writer(0, false, true, Idle, 0) && RunAsWritten(text, w, later) == w
  {
    var w := Writer(0, false, true, Idle, 0);
    assert RunAsWritten(text, InitialWriter, [EffectRun, EffectCleanup, EffectRun]) == w;
    StuckAsWritten(text, w, later);
  }

  lemma {:induction false} StuckAsWritten(text: string, w: Writer, later: seq<Event>)
    requires w == Writer(0, false, true, Idle, 0)
    requires forall i :: 0 <= i < |later| ==> later[i] == TimerFired || later[i] == IntervalTick
    ensures Consistent(text, w) && RunAsWritten(text, w, later) == w
    decreases |later|
  {
    if |later| > 0 {
      StuckAsWritten(text, w, later[1..]);
    }
  }

  lemma {:induction false} RunAppend(text: string, w: Writer, a: seq<Event>, b: seq<Event>)
    ensures Run(text, w, a + b) == Run(text, Run(text, w, a), b)
    decreases |a|
  {
    if |a| == 0 {
      assert a + b == b;
    } else {
      assert (a + b)[1..] == a[1..] + b;
      RunAppend(text, Step(text, w, a[0]), a[1..], b);
    }
  }

  lemma {:induction false} RunAsWrittenAppend(text: string, w: Writer, a: seq<Event>, b: seq<Event>)
    ensures RunAsWritten(text, w, a + b) == RunAsWritten(text, RunAsWritten(text, w, a), b)
    decreases |a|
  {
    if |a| == 0 {
      assert a + b == b;
    } else {
      assert (a + b)[1..] == a[1..] + b;
      RunAsWrittenAppend(text, StepAsWritten(text, w, a[0]), a[1..], b);
    }
  }
}

=== FILE: wrappers.dfy ===
/** Optional values, the model's stand-in for JavaScript's `null` / `undefined`. */
module Wrappers {

  datatype Option<+T> = None | Some(value: T) {

    /** The wrapped value, or `default` when there is none (JavaScript's `x || default`). */
    function GetOr(default: T): (r: T)
      ensures Some? ==> r == value
      ensures None? ==> r == default
    {
      match this
      case Some(v) => v
      case None => default
    }
  }
}
